=== FILE: README.md ===
# Trait Flow core, modelled in Dafny

Trait Flow is a mobile web prototype. Users answer the Ten-Item
Personality Inventory (TIPI) and receive Big-Five trait scores. They record
daily mood/energy check-ins, and the home page shows a canned
"personalized" message chosen from a set of scores and a check-in. This
project models the deterministic rules inside it:

- the ten-item table and the scoring of answers into five trait means (`Tipi`, `Scoring`);
- the choice of the dominant trait by a stable descending sort, and the message built from it (`AiService`);
- the onboarding quiz as a state machine: welcome, one screen per item, profile (`Onboarding`);
- the check-in dialog as a state machine: form, loading, result. This includes the payload it submits (`CheckinModal`, with `Text` for `trim`/`repeat`);
- the small classifiers: the profile's band label (`ProfileView`), the mood face (`CheckinModal`) and the history's star string (`HistoryView`);
- compositions of these parts along the lines the types suggest (`Scenarios`): quiz scores fed to the message service, and a submitted check-in carried into a message. The app itself does not wire them. The home page asks for a message with fixed mock scores and the first mock check-in (App.tsx:362-368), and its save handler only logs (App.tsx:378-381).

Scores are exact reals. Every score the code produces is a multiple of one
half, so floating point loses nothing here. Answers are a `map<int, int>`
keyed by item id. `answers[id] || 4` turns an absent answer, or one equal
to 0, into 4. Scores are a record with one field per trait, so every trait
always has a score. The field order E, A, C, N, O is the key order of every
scores object the application builds, and therefore the order in which
`Object.entries` lists them. The message id and date come from the clock,
so they are inputs. The `onSave` callback becomes an abstract outcome:
resolved with a message, or rejected.

A few facts about the code that the model keeps:

- The quiz shows one item per screen, and Next is gated on the item on screen.
- The quiz slider is controlled and shows 4 for an unanswered item. Moving it to the value it already shows fires no change, so a first answer of 4 takes two moves.
- Scores lie in [1,7] for in-scale answers.
- Between equal maximum scores the stable sort keeps key order, so the earliest trait wins.
- Item 4 is forward and item 9 is reversed, so the fourth scale is Neuroticism. The published TIPI key instead reverses items 2, 4, 6, 8 and 10 on an Emotional Stability scale.

## Model

| member | source | states |
|---|---|---|
| Types.TraitSetClosed | types.ts:2-8 | The trait enumeration has exactly five values, each listed once in key order. |
| Tipi.Questions | constants.ts:4-15 | The table has ten items with ids 1..10 in order. Every trait is tagged by exactly two items, and exactly one of the two is reverse-coded. The reverse-coded ids are exactly {2, 6, 8, 9, 10}. |
| Tipi.TableCounts | constants.ts:5-14 | Every trait has two items in the table, one of them reversed. |
| Scoring.EffectiveAnswer | App.tsx:244 | An answered item counts with its answer; an absent or 0 answer counts as 4. The value is never 0, and lies in [1,7] for in-scale answers. |
| Scoring.Contribution | App.tsx:244-245 | A reversed item adds 8 minus its effective answer, a forward one adds the effective answer. An unanswered item adds 4 either way, and an in-scale answer adds a value in [1,7]. |
| Scoring.ReverseCodeInvolution | App.tsx:245 | `8 - r` maps [1,7] onto [1,7], and applying it twice gives back `r`. |
| Scoring.CalculateScores | App.tsx:233-256 | One pass over the items accumulates a sum and a count per trait; then each sum is divided by its own count. The result is the reference mean for every trait, and every count is 2. |
| Scoring.ScoresArePairMeans | App.tsx:243-253 | With the fixed table, each score is the mean of its two items: E(1, 6R), A(2R, 7), C(3, 8R), N(4, 9R), O(5, 10R). |
| Scoring.SumBounds | App.tsx:243-247 | For in-scale answers, a trait's sum over n items lies between n and 7n. |
| Scoring.ScoresInScale | App.tsx:243-253 | If every answer is in 0..7, every score is in [1,7]. |
| Scoring.SumOfUnanswered | App.tsx:244-245 | Each unanswered item adds 4 to its trait's sum, whether it is reversed or not. |
| Scoring.UnansweredTraitIsNeutral | App.tsx:244 | A trait with none of its items answered (absent or 0) scores exactly 4. |
| Scoring.NeutralAnswersScoreFour | App.tsx:244 | With every item neutral or unanswered, all five traits score 4. |
| Scoring.MaximalExtraversion | App.tsx:243-253 | Item 1 = 7 and item 6 = 1 give Extraversion the score 7. |
| AiService.Entries | services/aiService.ts:16 | `Object.entries(scores)` lists the five traits in key order, each with its score. |
| AiService.Insert | services/aiService.ts:16 | Inserting an element adds exactly it to the multiset. The new head is the inserted element when its score is not below the old head's; otherwise the old head stays. |
| AiService.InsertKeepsSorted | services/aiService.ts:16 | Insertion keeps a descending sequence descending. |
| AiService.SortDescending | services/aiService.ts:16 | The sort returns a permutation of the entries in non-increasing score order. |
| AiService.FirstMaximum | services/aiService.ts:16 | Returns the index of an entry with the maximum score, and every earlier entry scores strictly less. |
| AiService.SortHeadIsFirstMaximum | services/aiService.ts:16 | The head of the stable descending sort is the first entry that attains the maximum. |
| AiService.StrictMaximumHeadsSort | services/aiService.ts:16 | Whatever the entry order, an entry that strictly exceeds all others heads the sort. |
| AiService.Dominant | services/aiService.ts:16-17 | The trait heading the sorted entries has the maximum score, and every trait before it in key order scores strictly less. |
| AiService.FirstMaximumKey | services/aiService.ts:16 | The key at the first maximum of the entries has the maximum score, and every earlier key scores strictly less. |
| AiService.DominantUnique | services/aiService.ts:16-17 | Those two properties determine the chosen trait: any trait having both is the one chosen. |
| AiService.StrictMaximumIsDominant | services/aiService.ts:16-17 | A trait that scores strictly above the other four is chosen. |
| AiService.TemplatesDistinct | services/aiService.ts:19-36 | The five traits have five different message texts. |
| AiService.Template | services/aiService.ts:14-36 | No template equals the text assigned before the switch, so that text is never returned. Only the Agreeableness template starts with it, adding a further sentence. |
| AiService.GetPersonalizedMessage | services/aiService.ts:5-48 | The base trait is the first maximum in key order, and the text is that trait's template. No rating is attached, and id and date are passed through. Mood and energy are copied from the check-in, or are 3 and medium without one. |
| AiService.CheckinOnlyAffectsSnapshot | services/aiService.ts:19-45 | The check-in never changes the chosen trait or the text. |
| Onboarding.CurrentItem | App.tsx:258 | The item on screen at position i has id i + 1. |
| Onboarding.Begin | App.tsx:275 | The start button moves from the welcome screen to the quiz and leaves everything else unchanged. |
| Onboarding.HandleAnswer | App.tsx:229-231 | Recording an answer sets that item's entry and leaves every other answer, and the rest of the state, unchanged. |
| Onboarding.HandleNext | App.tsx:214-221 | Below the last item, Next advances by one. On the last item, Next stores the scores of the answers and moves to the profile. |
| Onboarding.HandleBack | App.tsx:223-227 | Back at the first item is a no-op; elsewhere it steps back by one. |
| Onboarding.Dispatch | App.tsx:275-319 | The stage changes only by the start button on the welcome screen, or by an enabled Next on the last item. The item on screen moves only by an enabled Next (`NextEnabled`: the item has a truthy answer) or an enabled Back (`BackEnabled`: not the first item). Answers change only by the slider, for the item on screen, and exactly when it moves to a value other than the one it shows. An enabled Next always has an effect, and the profile screen ignores every event. Conversely, start on the welcome screen applies `Begin`, an enabled Next applies `HandleNext`, an enabled Back applies `HandleBack`, and a slider move to a new value applies `HandleAnswer` for the item on screen. |
| Onboarding.Displayed | App.tsx:306 | The slider shows the item's answer when it has a truthy one, and 4 otherwise. |
| Onboarding.NeutralFirstAnswerTakesTwoMoves | App.tsx:305-307 | On an unanswered item, moving the slider to 4 changes nothing and Next stays disabled. Moving it to any other value and then to 4 records 4 and enables Next. |
| Onboarding.StageMonotone | App.tsx:214-221 | One event moves the page at most one stage forward and never back. The profile screen is final. |
| Onboarding.RunStageMonotone | App.tsx:214-221 | Over any sequence of events the stage never goes back, and the profile screen is final. |
| Onboarding.DispatchKeepsConsistent | App.tsx:214-231 | Every event preserves the invariant: answers are slider values for real items, and every item before the current one is answered. The profile shows exactly when scores exist, and then all ten items are answered and the scores match them. |
| Onboarding.RunKeepsConsistent | App.tsx:214-231 | Any sequence of events preserves the invariant. |
| Onboarding.ReachableStatesConsistent | App.tsx:316-319 | Every reachable state satisfies the invariant. The profile screen's scores are those of ten answers, each score in [1,7]. |
| Onboarding.AnswersPersist | App.tsx:229-231 | No event removes an answer or makes it falsy. |
| Text.TrimStart | components/CheckinModal.tsx:56 | Returns a suffix whose removed prefix is all whitespace and which does not start with whitespace. |
| Text.TrimEnd | components/CheckinModal.tsx:56 | Returns a prefix whose removed suffix is all whitespace and which does not end with whitespace. |
| Text.Trim | components/CheckinModal.tsx:56 | The result is the slice of the input between an all-whitespace prefix and an all-whitespace suffix. Neither end of it is whitespace. It is empty exactly when the input is all whitespace. |
| Text.TrimCharacterized | components/CheckinModal.tsx:56 | Any slice with all-whitespace surroundings and non-whitespace ends is the trimmed string, so the contract of `Trim` determines its result. |
| Text.TrimIdempotent | components/CheckinModal.tsx:56 | Trimming twice is trimming once. |
| Text.Repeat | App.tsx:468 | A negative count raises RangeError; otherwise the result is n copies of the character. |
| CheckinModal.EnergyChoices | components/CheckinModal.tsx:11-15 | The picker lists low, medium and high in that order, each energy level exactly once. |
| CheckinModal.MoodEmoji | components/CheckinModal.tsx:42-48 | Values up to 1 get the crying face, 2 the worried face, 3 the neutral face, 4 the slightly smiling face, and 5 or more the smiling face. |
| CheckinModal.MoodEmojiBands | components/CheckinModal.tsx:42-48 | Values up to 1 share the lowest face and values from 5 up share the highest. The five slider values get five different faces. |
| CheckinModal.Reset | components/CheckinModal.tsx:18-32 | Reset gives mood 3, medium energy, an empty note, the form, no result and no error, whatever the state before. That is the state the dialog starts in. |
| CheckinModal.BuildPayload | components/CheckinModal.tsx:55-61 | Mood and energy are sent unchanged. A note is sent exactly when the text is not all whitespace, and then it is the trimmed text. |
| CheckinModal.BeginSave | components/CheckinModal.tsx:50-61 | Save while loading changes nothing and sends nothing. Otherwise the status becomes loading, the error is cleared, and the payload built from the form is sent. |
| CheckinModal.FinishSave | components/CheckinModal.tsx:62-69 | On success the result screen shows the message. On failure the form returns with the error set. Mood, energy and note are kept either way. |
| CheckinModal.HandleClose | components/CheckinModal.tsx:72-75 | Closing yields the fresh dialog state. |
| CheckinModal.OpenChanged | components/CheckinModal.tsx:34-38 | Closing from outside resets the dialog; opening leaves it as it is. |
| CheckinModal.Dispatch | components/CheckinModal.tsx:82-175 | Form inputs change nothing outside the form. Loading starts only from save on the form (`SaveOffered`), which keeps the fields and clears the error. While loading, only the outcome or the parent closing the dialog has an effect. Close resets unless loading (`CloseEnabled`); OK resets on the result screen and does nothing elsewhere (`OkOffered`). A result appears only when a save resolves with it. Conversely, on the form each input sets its own field and nothing else, and while loading an outcome applies `FinishSave`. |
| CheckinModal.DispatchKeepsConsistent | components/CheckinModal.tsx:50-75 | Every event (with close disabled while loading, save only on the form, OK only on the result) preserves the invariant: the mood is in 1..5, a result exists exactly on the result screen, and an error appears only on the form. |
| CheckinModal.RunKeepsConsistent | components/CheckinModal.tsx:82 | Any sequence of events preserves the invariant. |
| CheckinModal.ReachableStatesConsistent | components/CheckinModal.tsx:18-23 | Every state reachable from a fresh dialog satisfies the invariant. |
| CheckinModal.FailedSaveKeepsForm | components/CheckinModal.tsx:65-68 | After a failed save the form holds what the user entered, with the error shown, and saving again sends the same payload. |
| CheckinModal.SettleWithLoggingHandler | App.tsx:378-381 | With the home page's handler, the dialog reaches the result screen with no message. |
| CheckinModal.LoggingHandlerLeavesEmptyResult | App.tsx:378-381 | A save from a fresh dialog through that handler ends in a state the invariant rules out. |
| ProfileView.BandOf | App.tsx:341 | "high" exactly above 4.5 and "low" exactly below 3.5; "medium" exactly in [3.5, 4.5], so 3.5 and 4.5 are medium. |
| ProfileView.Phrase | App.tsx:341 | Each band has its own phrase: "高い" exactly for high, "中程度" exactly for medium, "低い" exactly for low. |
| ProfileView.Tendency | App.tsx:341 | The phrase shown is "高い" exactly above 4.5, "低い" exactly below 3.5, and "中程度" otherwise. |
| ProfileView.BandMonotone | App.tsx:341 | A higher score never gets a lower band, and 4 is medium. |
| HistoryView.StarString | App.tsx:468 | For a rating n in 0..5 (missing counts as 0), the result is five symbols: n filled, then hollow. Any other rating raises RangeError. |
| HistoryView.FilledCountAppend | App.tsx:468 | The filled-star count of a concatenation is the sum of the counts. |
| HistoryView.StarsShowRating | App.tsx:468 | The star string holds exactly as many filled stars as the rating. |
| Scenarios.NeutralAnswersChooseExtraversion | services/aiService.ts:16-17 | Neutral answers tie all traits at 4, and the tie goes to Extraversion. |
| Scenarios.MaximalExtraversionChoosesItsMessage | App.tsx:303-305 | With in-scale answers, item 1 = 7 and item 6 = 1 choose Extraversion and its message, whatever the check-in. |
| Scenarios.LowMoodCheckinSnapshot | components/CheckinModal.tsx:56-60 | A check-in with mood 1, low energy and a blank note carries no note, and its message records mood 1 and low energy. |

## Left out

- Routing, layout, navigation chrome and the developer navigation (App.tsx:36-123, 561-594) are presentation plus a routing library.
- The landing, auth and settings pages (App.tsx:128-205, 484-557) are static UI. The timer-driven redirect there is a side effect.
- The home page's message fetch and its mock scores (App.tsx:356-425) are left out. The 800 ms delay in the message service and the clock-derived id and date are left out too; id and date are inputs.
- The mock history data (App.tsx:13-22) is left out. Three of its four moods (8, 6, 7) lie outside 1..5, and the history's energy table has an extra key; neither is an invariant of the code.
- The radar chart (components/BigFiveRadarChart.tsx) is a thin wrapper over a charting library.
- The progress-bar percentage, `toFixed` and `toLocaleString` formatting, and IEEE floating point are not modelled. Scores are exact reals.
- Answers and ratings are integers. A non-integer or NaN answer, which the 1..7 slider cannot produce, is not modelled.
- Text.IsWhitespace: lists the ECMAScript WhiteSpace and LineTerminator code points by hand. The Zs category follows a fixed Unicode version rather than the engine's.
- CheckinModal.Dispatch: delivers a save's outcome only while the dialog is loading. A promise that settles after the parent has closed the dialog is not modelled; the home page cannot close it while loading.
- CheckinModal.BeginSave: the re-entrancy guard reads the current status. React's stale-closure timing between two clicks in one frame is not modelled.
- The prompt text is kept outside the item record, in `Tipi.Prompt`, so that the table stays cheap to reason about.
- The app never passes the quiz's scores or a saved check-in to the message service. The profile's scores are dropped on leaving it (App.tsx:345), the home page uses mock data (App.tsx:362-368), and the save handler only logs (App.tsx:378-381). `Scenarios` composes the modelled functions directly rather than following a wiring the app has.
- The welcome screen's back arrow and the profile's "home" button only navigate, so they are not modelled.

## Findings

| source | as written | input that shows it | evidently intended | confidence | as-written member | corrected member |
|---|---|---|---|---|---|---|
| App.tsx:378-381 | The home page passes the dialog a save handler that only logs and returns nothing. The dialog expects a promise of a message, so `await onSave(payload)` yields `undefined`, and the dialog shows an empty result screen. | Open the check-in dialog and press save with the defaults | The handler resolves with a generated message, so the result screen shows it | not executed; high | CheckinModal.LoggingHandlerLeavesEmptyResult | CheckinModal.DispatchKeepsConsistent |

=== FILE: ai_service.dfy ===
/** The mock message service (services/aiService.ts): picks the
    highest-scoring trait and returns that trait's canned message together
    with the mood and energy in effect. */
module AiService {
  import opened Wrappers
  import opened Types

  /** One `[trait, score]` pair of `Object.entries(scores)`. */
  datatype Entry = Entry(key: Trait, score: real)

  /** `Object.entries(scores)`: the five pairs in key order. */
  function Entries(s: Scores): (es: seq<Entry>)
    ensures |es| == |TraitOrder|
    ensures forall t :: es[Index(t)] == Entry(t, s.Get(t))
  {
    [Entry(Extraversion, s.extraversion), Entry(Agreeableness, s.agreeableness),
     Entry(Conscientiousness, s.conscientiousness), Entry(Neuroticism, s.neuroticism),
     Entry(Openness, s.openness)]
  }

  /** Ordered by non-increasing score. */
  ghost predicate SortedDescending(es: seq<Entry>)
  {
    forall i, j :: 0 <= i < j < |es| ==> es[i].score >= es[j].score
  }

  /** Inserts `x` into a descending `es` ahead of every entry whose score
      does not exceed its own, as a stable sort does for an element that
      came first in the input. */
  function Insert(x: Entry, es: seq<Entry>): (r: seq<Entry>)
    ensures multiset(r) == multiset(es) + multiset{x}
    ensures r[0] == (if es == [] || es[0].score <= x.score then x else es[0])
  {
    if es == [] || es[0].score <= x.score then [x] + es
    else
      assert es == [es[0]] + es[1..];
      [es[0]] + Insert(x, es[1..])
  }

  /** Every entry of `Insert(x, es)` comes from `es` or is `x`. */
  lemma InsertMembers(x: Entry, es: seq<Entry>, e: Entry)
    requires e in Insert(x, es)
    ensures e in es || e == x
  {
  }

  /** Insertion keeps a descending sequence descending. */
  lemma {:induction false} InsertKeepsSorted(x: Entry, es: seq<Entry>)
    requires SortedDescending(es)
    ensures SortedDescending(Insert(x, es))
  {
    if es != [] && x.score < es[0].score {
      var h := es[0];
      var rest := Insert(x, es[1..]);
      assert SortedDescending(es[1..]) by {
        forall i, j | 0 <= i < j < |es[1..]| ensures es[1..][i].score >= es[1..][j].score {
          assert es[1..][i] == es[i + 1] && es[1..][j] == es[j + 1];
        }
      }
      InsertKeepsSorted(x, es[1..]);
      assert Insert(x, es) == [h] + rest;
      forall k | 0 <= k < |rest| ensures rest[k].score <= h.score {
        InsertMembers(x, es[1..], rest[k]);
      }
    }
  }

  /** `es.sort((a, b) => b[1] - a[1])`: the stable sort by descending score,
      a permutation of its input in non-increasing order. */
  function SortDescending(es: seq<Entry>): (r: seq<Entry>)
    ensures multiset(r) == multiset(es)
    ensures SortedDescending(r)
  {
    if es == [] then []
    else
      assert es == [es[0]] + es[1..];
      var rest := SortDescending(es[1..]);
      InsertKeepsSorted(es[0], rest);
      Insert(es[0], rest)
  }

  /** Index of the first entry holding the maximum score. */
  function FirstMaximum(es: seq<Entry>): (i: nat)
    requires |es| > 0
    ensures i < |es|
    ensures forall j :: 0 <= j < |es| ==> es[j].score <= es[i].score
    ensures forall j :: 0 <= j < i ==> es[j].score < es[i].score
  {
    if |es| == 1 then 0
    else
      var k := FirstMaximum(es[1..]) + 1;
      if es[k].score <= es[0].score then 0 else k
  }

  /** The head of the stable descending sort is the first entry that attains
      the maximum. */
  lemma {:induction false} SortHeadIsFirstMaximum(es: seq<Entry>)
    requires |es| > 0
    ensures |SortDescending(es)| == |es|
    ensures SortDescending(es)[0] == es[FirstMaximum(es)]
  {
    assert |multiset(SortDescending(es))| == |multiset(es)|;
    if |es| > 1 {
      SortHeadIsFirstMaximum(es[1..]);
    }
  }

  /** Whatever the order of the entries, one whose score strictly exceeds
      every other's heads the sort. */
  lemma StrictMaximumHeadsSort(es: seq<Entry>, k: nat)
    requires k < |es|
    requires forall j :: 0 <= j < |es| && j != k ==> es[j].score < es[k].score
    ensures |SortDescending(es)| == |es|
    ensures SortDescending(es)[0] == es[k]
  {
    SortHeadIsFirstMaximum(es);
  }

  /** The trait `getPersonalizedMessage` picks: the key heading the sorted
      entries. It has the maximum score, and every trait declared before it
      scores strictly less: ties go to the earliest trait in key order. */
  function Dominant(s: Scores): (t: Trait)
    ensures forall u :: s.Get(u) <= s.Get(t)
    ensures forall u :: Index(u) < Index(t) ==> s.Get(u) < s.Get(t)
  {
    SortHeadIsFirstMaximum(Entries(s));
    FirstMaximumKey(s);
    SortDescending(Entries(s))[0].key
  }

  /** The key at the first maximum of the entries is a trait with the
      maximum score before which every trait scores strictly less. */
  lemma FirstMaximumKey(s: Scores)
    ensures var d := Entries(s)[FirstMaximum(Entries(s))].key;
            && (forall u :: s.Get(u) <= s.Get(d))
            && (forall u :: Index(u) < Index(d) ==> s.Get(u) < s.Get(d))
  {
    var es := Entries(s);
    var i := FirstMaximum(es);
    var d := es[i].key;
    assert Index(d) == i && d == TraitOrder[i] by {
      IndexOfOrder(i);
      assert es[Index(TraitOrder[i])] == Entry(TraitOrder[i], s.Get(TraitOrder[i]));
    }
    forall u ensures s.Get(u) <= s.Get(d) && (Index(u) < i ==> s.Get(u) < s.Get(d)) {
      assert es[Index(u)] == Entry(u, s.Get(u));
    }
  }

  /** The contract of `Dominant` determines it: a trait with the maximum
      score before which every trait scores strictly less is the dominant
      one. */
  lemma DominantUnique(s: Scores, t: Trait)
    requires forall u :: s.Get(u) <= s.Get(t)
    requires forall u :: Index(u) < Index(t) ==> s.Get(u) < s.Get(t)
    ensures Dominant(s) == t
  {
    var d := Dominant(s);
    assert s.Get(d) <= s.Get(t) && s.Get(t) <= s.Get(d);
    assert Index(d) == Index(t);
    assert TraitOrder[Index(d)] == d && TraitOrder[Index(t)] == t;
  }

  /** `Index` inverts `TraitOrder`. */
  lemma IndexOfOrder(i: nat)
    requires i < |TraitOrder|
    ensures Index(TraitOrder[i]) == i
  {
  }

  /** A trait scoring strictly above the other four is the dominant one. */
  lemma StrictMaximumIsDominant(s: Scores, t: Trait)
    requires forall u :: u != t ==> s.Get(u) < s.Get(t)
    ensures Dominant(s) == t
  {
    assert s.Get(t) <= s.Get(Dominant(s));
  }

  /** The text assigned before the scores are consulted. */
  const InitialText: string := "あなたの高い協調性は素晴らしい強みです。今日は誰かの話をじっくり聴いてみてはいかがでしょうか？"

  /** The canned message for a dominant trait. Agreeableness shares the
      switch's default branch, which no other trait reaches. No template is
      the initial text: only the Agreeableness one starts with it, adding a
      further sentence. */
  function Template(t: Trait): (r: string)
    ensures r != InitialText
    ensures t == Agreeableness <==> InitialText < r
  {
    match t
    case Extraversion =>
      assert InitialText[46] == '？';
      "あなたの外向性を活かして、今日は新しい人と話す機会を見つけてみましょう。きっと良い刺激になります。"
    case Conscientiousness =>
      assert InitialText[46] == '？';
      "その誠実さで、今日は一つのタスクに集中して取り組んでみてください。達成感が得られるはずです。"
    case Openness =>
      assert InitialText[46] == '？';
      "あなたの好奇心と開放性が輝く日です。いつもと違う道を通ったり、新しいジャンルの音楽を聴いてみたりしては？"
    case Neuroticism =>
      assert InitialText[46] == '？';
      "心配事を少し手放してみませんか？今日は5分間だけ、静かな場所で深呼吸する時間を作ってみましょう。"
    case Agreeableness =>
      "あなたの高い協調性は素晴らしい強みです。今日は誰かの話をじっくり聴いてみてはいかがでしょうか？あなたの聴く姿勢が、相手にとって大きな支えになるはずです。"
  }

  /** Five distinct templates, one per trait. */
  lemma TemplatesDistinct(t: Trait, u: Trait)
    requires t != u
    ensures Template(t) != Template(u)
  {
  }

  /** Mood and energy recorded when no check-in is available. */
  const DefaultMood: int := 3
  const DefaultEnergy: EnergyLevel := Medium

  /** `getPersonalizedMessage`, without its artificial delay; the id and the
      date, which the service derives from the clock, are inputs. The base
      trait is the first trait in key order attaining the maximum score, the
      text is that trait's template, no rating is attached, and the
      check-in's mood and energy are copied (3 and medium without one). */
  function GetPersonalizedMessage(scores: Scores, latest: Option<Checkin>, id: string, date: Timestamp)
    : (m: PersonalizedMessage)
    ensures m.id == id && m.date == date
    ensures forall t :: scores.Get(t) <= scores.Get(m.info.baseTrait)
    ensures forall t :: Index(t) < Index(m.info.baseTrait) ==> scores.Get(t) < scores.Get(m.info.baseTrait)
    ensures m.text == Template(m.info.baseTrait) && m.text != InitialText
    ensures m.rating == None
    ensures latest.Some? ==> m.info.mood == latest.value.mood && m.info.energy == latest.value.energy
    ensures latest.None? ==> m.info.mood == DefaultMood && m.info.energy == DefaultEnergy
  {
    var base := Dominant(scores);
    var mood := match latest case Some(c) => c.mood case None => DefaultMood;
    var energy := match latest case Some(c) => c.energy case None => DefaultEnergy;
    PersonalizedMessage(id, date, Template(base), None, Personalization(base, mood, energy))
  }

  /** The check-in never changes which trait is chosen or which text is
      returned; only the recorded mood and energy follow it. */
  lemma CheckinOnlyAffectsSnapshot(scores: Scores, c1: Option<Checkin>, c2: Option<Checkin>,
                                   id: string, date: Timestamp)
    ensures GetPersonalizedMessage(scores, c1, id, date).text
         == GetPersonalizedMessage(scores, c2, id, date).text
    ensures GetPersonalizedMessage(scores, c1, id, date).info.baseTrait
         == GetPersonalizedMessage(scores, c2, id, date).info.baseTrait
  {
  }
}

=== FILE: checkin_modal.dfy ===
/** The daily check-in dialog (components/CheckinModal.tsx): a form for
    mood, energy and an optional note, a loading state while the message is
    generated, and a result state showing it. */
module CheckinModal {
  import opened Wrappers
  import opened Types
  import opened Text

  /** One button of the energy picker. */
  datatype EnergyChoice = EnergyChoice(level: EnergyLevel, emoji: string, caption: string)

  /** `energyLevels`: one button per energy level, low to high. */
  function EnergyChoices(): (cs: seq<EnergyChoice>)
    ensures |cs| == 3
    ensures cs[0].level == Low && cs[1].level == Medium && cs[2].level == High
    ensures forall e: EnergyLevel :: cs[Rank(e)].level == e
    ensures forall i, j :: 0 <= i < j < |cs| ==> cs[i].level != cs[j].level
  {
    var cs := [EnergyChoice(Low, "\U{1F634}", "低い"),
               EnergyChoice(Medium, "\U{1F610}", "普通"),
               EnergyChoice(High, "\U{1F642}", "高い")];
    cs
  }

  /** Position of an energy level in the picker. */
  function Rank(e: EnergyLevel): (i: nat)
    ensures i < 3
  {
    match e
    case Low => 0
    case Medium => 1
    case High => 2
  }

  /** `getMoodEmoji`: a face for the mood slider's value, crying at 1 or
      below, then worried, neutral and slightly smiling, and smiling from 5
      up. */
  function MoodEmoji(value: int): (r: string)
    ensures value <= 1 ==> r == "\U{1F622}"
    ensures value == 2 ==> r == "\U{1F61F}"
    ensures value == 3 ==> r == "\U{1F610}"
    ensures value == 4 ==> r == "\U{1F642}"
    ensures value >= 5 ==> r == "\U{1F60A}"
  {
    if value <= 1 then "\U{1F622}"
    else if value == 2 then "\U{1F61F}"
    else if value == 3 then "\U{1F610}"
    else if value == 4 then "\U{1F642}"
    else "\U{1F60A}"
  }

  /** Every mood gets a face: those up to 1 share the lowest, those from 5
      up share the highest, and the slider's five values 1..5 get five
      different faces. */
  lemma MoodEmojiBands(v: int, w: int)
    ensures v <= 1 ==> MoodEmoji(v) == MoodEmoji(1)
    ensures v >= 5 ==> MoodEmoji(v) == MoodEmoji(5)
    ensures 1 <= v <= 5 && 1 <= w <= 5 && v != w ==> MoodEmoji(v) != MoodEmoji(w)
  {
  }

  /** `status`. */
  datatype Status = Form | Loading | ShowingResult

  /** The dialog's state. */
  datatype Modal = Modal(mood: int, energy: EnergyLevel, note: string, status: Status,
                         result: Option<PersonalizedMessage>, error: Option<string>)

  /** The error shown when saving fails. */
  const SaveFailedText: string := "送信に失敗しました。しばらくしてからもう一度お試しください。"

  /** The state the dialog starts in: each field's initial value. */
  const Fresh: Modal := Modal(3, Medium, "", Form, None, None)

  /** `resetState`: mood 3, medium energy, an empty note, the form, and no
      result or error, whatever the state before; that is, the state the
      dialog starts in. */
  function Reset(): (r: Modal)
    ensures r.mood == 3 && r.energy == Medium && r.note == []
    ensures r.status == Form && r.result == None && r.error == None
    ensures r == Fresh
  {
    Modal(3, Medium, "", Form, None, None)
  }

  /** The check-in sent to `onSave`: mood and energy as chosen, and the
      trimmed note only when something other than whitespace was typed. */
  function BuildPayload(mood: int, energy: EnergyLevel, note: string): (p: CheckinDraft)
    ensures p.mood == mood && p.energy == energy
    ensures p.note.Some? <==> !AllWhitespace(note)
    ensures p.note.Some? ==> p.note.value == Trim(note) && p.note.value != [] && Trimmed(p.note.value)
  {
    var trimmed := Trim(note);
    CheckinDraft(mood, energy, if trimmed != [] then Some(trimmed) else None)
  }

  /** The first half of `handleSave`, up to the call to `onSave`. */
  datatype SaveStart = SaveStart(state: Modal, payload: Option<CheckinDraft>)

  /** `handleSave` until it awaits `onSave`: ignored while a save is in
      flight; otherwise the dialog shows loading, the error is cleared, and
      the payload is built from the form. */
  function BeginSave(s: Modal): (r: SaveStart)
    ensures s.status == Loading ==> r.state == s && r.payload == None
    ensures s.status != Loading ==>
              && r.state == s.(status := Loading, error := None)
              && r.payload == Some(BuildPayload(s.mood, s.energy, s.note))
  {
    if s.status == Loading then SaveStart(s, None)
    else SaveStart(s.(status := Loading, error := None), Some(BuildPayload(s.mood, s.energy, s.note)))
  }

  /** How the promise returned by `onSave` settles. */
  datatype SaveOutcome = Resolved(message: PersonalizedMessage) | Rejected

  /** The rest of `handleSave`: on success the message is shown; on failure
      the form comes back with an error and the fields as they were. */
  function FinishSave(s: Modal, outcome: SaveOutcome): (r: Modal)
    ensures r.mood == s.mood && r.energy == s.energy && r.note == s.note
    ensures outcome.Resolved? ==> r.status == ShowingResult && r.result == Some(outcome.message)
                                  && r.error == s.error
    ensures outcome.Rejected? ==> r.status == Form && r.error == Some(SaveFailedText)
                                  && r.result == s.result
  {
    match outcome
    case Resolved(m) => s.(result := Some(m), status := ShowingResult)
    case Rejected => s.(error := Some(SaveFailedText), status := Form)
  }

  /** `handleClose`: resets the dialog (then tells the parent). */
  function HandleClose(s: Modal): (r: Modal)
    ensures r == Fresh
  {
    Reset()
  }

  /** The effect on `isOpen`: closing the dialog from outside resets it. */
  function OpenChanged(s: Modal, isOpen: bool): (r: Modal)
    ensures !isOpen ==> r == Fresh
    ensures isOpen ==> r == s
  {
    if !isOpen then Reset() else s
  }

  /** The close button is disabled while loading. */
  predicate CloseEnabled(s: Modal)
  {
    s.status != Loading
  }

  /** The save button is rendered only on the form. */
  predicate SaveOffered(s: Modal)
  {
    s.status == Form
  }

  /** The OK button is rendered only with a result. */
  predicate OkOffered(s: Modal)
  {
    s.status == ShowingResult
  }

  /** A value the 1..5 mood slider can produce. */
  type MoodValue = v: int | 1 <= v <= 5 witness 3

  /** What can happen to the dialog. */
  datatype Event =
    | SetMood(mood: MoodValue)
    | SetEnergy(energy: EnergyLevel)
    | SetNote(note: string)
    | PressSave
    | Settle(outcome: SaveOutcome)
    | PressClose
    | PressOk
    | ParentSetsOpen(isOpen: bool)

  /** The dialog's response to an event. Form inputs exist only on the form;
      an outcome arrives only while a save is in flight. Loading starts
      only from the save button on the form, and while loading neither the
      close button nor anything else but the outcome or the parent closing
      the dialog has an effect. The close button resets the dialog unless
      it is loading; OK resets it on the result screen and is absent
      elsewhere. A result appears only when a save resolves. On the form,
      each input sets its field; while loading, an outcome finishes the
      save. */
  function Dispatch(s: Modal, e: Event): (r: Modal)
    ensures (e.SetMood? || e.SetEnergy? || e.SetNote?) && s.status != Form ==> r == s
    ensures s.status == Form && e.SetMood? ==> r == s.(mood := e.mood)
    ensures s.status == Form && e.SetEnergy? ==> r == s.(energy := e.energy)
    ensures s.status == Form && e.SetNote? ==> r == s.(note := e.note)
    ensures s.status == Loading && e.Settle? ==> r == FinishSave(s, e.outcome)
    ensures r.status == Loading && s.status != Loading ==> e.PressSave? && s.status == Form
    ensures s.status == Loading && r != s ==> e.Settle? || e == ParentSetsOpen(false)
    ensures e.PressSave? && s.status == Form ==>
              && r.status == Loading && r.error == None
              && r.mood == s.mood && r.energy == s.energy && r.note == s.note && r.result == s.result
    ensures e.PressClose? ==> r == (if s.status == Loading then s else Fresh)
    ensures e.PressOk? ==> r == (if s.status == ShowingResult then Fresh else s)
    ensures r.result.Some? && r.result != s.result ==>
              s.status == Loading && e.Settle? && e.outcome == Resolved(r.result.value)
  {
    match e
    case SetMood(v) => if s.status == Form then s.(mood := v) else s
    case SetEnergy(x) => if s.status == Form then s.(energy := x) else s
    case SetNote(n) => if s.status == Form then s.(note := n) else s
    case PressSave => if SaveOffered(s) then BeginSave(s).state else s
    case Settle(o) => if s.status == Loading then FinishSave(s, o) else s
    case PressClose => if CloseEnabled(s) then HandleClose(s) else s
    case PressOk => if OkOffered(s) then HandleClose(s) else s
    case ParentSetsOpen(b) => OpenChanged(s, b)
  }

  /** What holds in every state the dialog reaches: the mood is a slider
      value; a result exists exactly on the result screen; an error is only
      ever shown on the form. */
  predicate Consistent(s: Modal)
  {
    && 1 <= s.mood <= 5
    && (s.status == ShowingResult <==> s.result.Some?)
    && (s.error.Some? ==> s.status == Form)
  }

  /** Every event keeps a consistent dialog consistent. */
  lemma DispatchKeepsConsistent(s: Modal, e: Event)
    requires Consistent(s)
    ensures Consistent(Dispatch(s, e))
  {
  }

  /** The state after a sequence of events. */
  function Run(s: Modal, es: seq<Event>): Modal
    decreases |es|
  {
    if es == [] then s else Run(Dispatch(s, es[0]), es[1..])
  }

  /** Any sequence of events keeps a consistent dialog consistent. */
  lemma {:induction false} RunKeepsConsistent(s: Modal, es: seq<Event>)
    requires Consistent(s)
    ensures Consistent(Run(s, es))
    decreases |es|
  {
    if es != [] {
      DispatchKeepsConsistent(s, es[0]);
      RunKeepsConsistent(Dispatch(s, es[0]), es[1..]);
    }
  }

  /** Every state reachable from a fresh dialog is consistent. */
  lemma ReachableStatesConsistent(es: seq<Event>)
    ensures Consistent(Run(Fresh, es))
  {
    RunKeepsConsistent(Fresh, es);
  }

  /** A failed save leaves the form as the user filled it in, with the
      error shown, so that it can be submitted again unchanged. */
  lemma FailedSaveKeepsForm(s: Modal)
    requires s.status == Form
    ensures var r := FinishSave(BeginSave(s).state, Rejected);
            && r.status == Form && r.error == Some(SaveFailedText)
            && r.mood == s.mood && r.energy == s.energy && r.note == s.note
            && BeginSave(r).payload == BeginSave(s).payload
  {
  }

  /** The parent page's save handler as wired (App.tsx, `handleSaveCheckin`)
      logs the check-in and returns nothing, so `await onSave(payload)`
      yields `undefined`: the dialog switches to the result screen with no
      message to show. */
  function SettleWithLoggingHandler(s: Modal): (r: Modal)
    ensures r.status == ShowingResult && r.result == None
    ensures r.mood == s.mood && r.energy == s.energy && r.note == s.note && r.error == s.error
  {
    s.(result := None, status := ShowingResult)
  }

  /** With that handler, a save from a fresh dialog ends on a result screen
      without a result, which `Consistent` rules out and which renders
      nothing but the OK button. */
  lemma LoggingHandlerLeavesEmptyResult()
    ensures var r := SettleWithLoggingHandler(BeginSave(Fresh).state);
            r.status == ShowingResult && r.result == None && !Consistent(r)
  {
  }
}

=== FILE: onboarding.dfy ===
/** The onboarding quiz (App.tsx, `OnboardingPage`): a welcome screen, one
    screen per inventory item with Back and Next, and a profile screen
    showing the scores. */
module Onboarding {
  import opened Wrappers
  import opened Types
  import opened Tipi
  import opened Scoring

  /** `step`: 0 welcome, 1 questions, 2 results. */
  datatype Stage = Welcome | Quiz | Profile

  /** `currentQuestion`: a position in the item table. */
  type QuestionIndex = i: int | 0 <= i < 10

  /** A value the quiz's 1..7 slider can produce. */
  type Likert = v: int | 1 <= v <= 7 witness 4

  datatype State = State(stage: Stage, answers: Answers, current: QuestionIndex, scores: Option<Scores>)

  /** The state the page mounts with. */
  const Initial: State := State(Welcome, map[], 0, None)

  /** Position of the last item. */
  const LastQuestion: QuestionIndex := 9

  /** The item on screen. */
  function CurrentItem(s: State): (q: Question)
    ensures q.id == s.current + 1
  {
    Questions()[s.current]
  }

  /** The welcome screen's start button. */
  function Begin(s: State): (r: State)
    ensures r.stage == Quiz
    ensures r.answers == s.answers && r.current == s.current && r.scores == s.scores
  {
    s.(stage := Quiz)
  }

  /** `handleAnswer`: records `value` for item `id`, leaving every other
      answer and the rest of the state as it was. */
  function HandleAnswer(s: State, id: int, value: int): (r: State)
    ensures id in r.answers && r.answers[id] == value
    ensures forall k :: k != id ==> (k in r.answers <==> k in s.answers)
    ensures forall k :: k != id && k in s.answers ==> r.answers[k] == s.answers[k]
    ensures r.stage == s.stage && r.current == s.current && r.scores == s.scores
  {
    s.(answers := s.answers[id := value])
  }

  /** `handleNext`: advances one item, or on the last item computes the
      scores from the answers given and moves to the profile screen. */
  function HandleNext(s: State): (r: State)
    ensures s.current < LastQuestion ==> r == s.(current := s.current + 1)
    ensures s.current == LastQuestion ==>
              r.stage == Profile && r.scores == Some(ScoresOf(s.answers))
              && r.answers == s.answers && r.current == s.current
  {
    if s.current < |Questions()| - 1 then s.(current := s.current + 1)
    else s.(scores := Some(ScoresOf(s.answers)), stage := Profile)
  }

  /** `handleBack`: goes back one item; a no-op on the first. */
  function HandleBack(s: State): (r: State)
    ensures s.current == 0 ==> r == s
    ensures s.current > 0 ==> r == s.(current := s.current - 1)
  {
    if s.current > 0 then s.(current := s.current - 1) else s
  }

  /** Next is enabled only when the item on screen has a (truthy) answer. */
  predicate NextEnabled(s: State)
  {
    Answered(s.answers, CurrentItem(s).id)
  }

  /** Back is disabled on the first item. */
  predicate BackEnabled(s: State)
  {
    s.current != 0
  }

  /** What the user can do on the page. `Slide(v)` moves the slider to `v`. */
  datatype Event = Start | Slide(value: Likert) | PressNext | PressBack

  /** The value the slider shows for the item on screen: its answer, or 4
      (`answers[q.id] || 4`). */
  function Displayed(s: State): (v: int)
    ensures Answered(s.answers, CurrentItem(s).id) ==> v == s.answers[CurrentItem(s).id]
    ensures !Answered(s.answers, CurrentItem(s).id) ==> v == 4
  {
    EffectiveAnswer(s.answers, CurrentItem(s).id)
  }

  /** The page's response to an event: a control that is not on screen, or
      is disabled, does nothing. The stage moves only by the start button
      on the welcome screen and by an enabled Next on the last item; the
      item on screen moves only by an enabled Next or Back; answers change
      only by the slider, for the item on screen, and exactly when it moves
      to a value other than the one it shows (the slider is controlled, so
      an unchanged value fires no change); an enabled Next always has an
      effect; the profile screen ignores every event. Conversely, each
      enabled control applies its handler. */
  function Dispatch(s: State, e: Event): (r: State)
    ensures r.stage != s.stage ==>
              || (s.stage == Welcome && e.Start? && r.stage == Quiz)
              || (s.stage == Quiz && e.PressNext? && NextEnabled(s) && s.current == LastQuestion && r.stage == Profile)
    ensures r.current != s.current ==>
              && s.stage == Quiz
              && (|| (e.PressNext? && NextEnabled(s) && r.current == s.current + 1)
                  || (e.PressBack? && BackEnabled(s) && r.current == s.current - 1))
    ensures r.answers != s.answers ==>
              s.stage == Quiz && e.Slide? && r.answers == s.answers[CurrentItem(s).id := e.value]
    ensures s.stage == Quiz && e.Slide? ==> (r.answers != s.answers <==> e.value != Displayed(s))
    ensures s.stage == Quiz && e.PressNext? && NextEnabled(s) ==> r != s
    ensures s.stage == Welcome && e.Start? ==> r == Begin(s)
    ensures s.stage == Quiz && e.Slide? && e.value != Displayed(s) ==>
              r == HandleAnswer(s, CurrentItem(s).id, e.value)
    ensures s.stage == Quiz && e.PressNext? && NextEnabled(s) ==> r == HandleNext(s)
    ensures s.stage == Quiz && e.PressBack? && BackEnabled(s) ==> r == HandleBack(s)
    ensures s.stage == Profile ==> r == s
  {
    match e
    case Start => if s.stage == Welcome then Begin(s) else s
    case Slide(v) => if s.stage == Quiz && v != Displayed(s) then HandleAnswer(s, CurrentItem(s).id, v) else s
    case PressNext => if s.stage == Quiz && NextEnabled(s) then HandleNext(s) else s
    case PressBack => if s.stage == Quiz && BackEnabled(s) then HandleBack(s) else s
  }

  /** Position of a stage in the page's flow. */
  function StageRank(st: Stage): nat
  {
    match st
    case Welcome => 0
    case Quiz => 1
    case Profile => 2
  }

  /** The page never goes back a stage and never skips one, and the profile
      screen is final. */
  lemma StageMonotone(s: State, e: Event)
    ensures var r := StageRank(Dispatch(s, e).stage);
            r == StageRank(s.stage) || r == StageRank(s.stage) + 1
    ensures s.stage == Profile ==> Dispatch(s, e) == s
  {
  }

  /** The state after a sequence of events. */
  function Run(s: State, es: seq<Event>): State
    decreases |es|
  {
    if es == [] then s else Run(Dispatch(s, es[0]), es[1..])
  }

  /** Every item of the table is answered. */
  predicate AllAnswered(a: Answers)
  {
    forall i :: 0 <= i < |Questions()| ==> Answered(a, Questions()[i].id)
  }

  /** What holds of every state the page can reach: answers are slider
      values for real items; every item before the current one is answered;
      the profile screen is shown exactly when scores exist, and then all
      ten items are answered and the scores are those of the answers. */
  predicate Consistent(s: State)
  {
    && (forall id :: id in s.answers ==> 1 <= id <= 10 && 1 <= s.answers[id] <= 7)
    && (forall k :: 0 <= k < s.current ==> Answered(s.answers, Questions()[k].id))
    && (s.stage == Welcome ==> s.current == 0 && s.answers == map[])
    && (s.stage == Profile <==> s.scores.Some?)
    && (s.stage == Profile ==>
          s.current == LastQuestion && AllAnswered(s.answers) && s.scores == Some(ScoresOf(s.answers)))
  }

  /** Every event keeps a consistent state consistent. */
  lemma DispatchKeepsConsistent(s: State, e: Event)
    requires Consistent(s)
    ensures Consistent(Dispatch(s, e))
  {
  }

  /** Any sequence of events keeps a consistent state consistent. */
  lemma {:induction false} RunKeepsConsistent(s: State, es: seq<Event>)
    requires Consistent(s)
    ensures Consistent(Run(s, es))
    decreases |es|
  {
    if es != [] {
      DispatchKeepsConsistent(s, es[0]);
      RunKeepsConsistent(Dispatch(s, es[0]), es[1..]);
    }
  }

  /** Every reachable state is consistent; in particular the profile screen
      shows scores computed from ten answers, each score in [1,7]. */
  lemma ReachableStatesConsistent(es: seq<Event>)
    ensures Consistent(Run(Initial, es))
    ensures Run(Initial, es).stage == Profile ==>
              forall t :: 1.0 <= Run(Initial, es).scores.value.Get(t) <= 7.0
  {
    RunKeepsConsistent(Initial, es);
    var s := Run(Initial, es);
    if s.stage == Profile {
      ScoresInScale(s.answers);
    }
  }

  /** Over any sequence of events the stage never goes back, and once the
      profile screen is reached nothing changes. */
  lemma {:induction false} RunStageMonotone(s: State, es: seq<Event>)
    ensures StageRank(s.stage) <= StageRank(Run(s, es).stage)
    ensures s.stage == Profile ==> Run(s, es) == s
    decreases |es|
  {
    if es != [] {
      StageMonotone(s, es[0]);
      RunStageMonotone(Dispatch(s, es[0]), es[1..]);
    }
  }

  /** On an unanswered item the slider shows 4, so moving it to 4 fires no
      change and Next stays disabled; a first answer of 4 takes two moves,
      away to any other value and back. */
  lemma NeutralFirstAnswerTakesTwoMoves(s: State, v: Likert)
    requires s.stage == Quiz && !NextEnabled(s)
    requires v != 4
    ensures Dispatch(s, Slide(4)) == s
    ensures var r := Dispatch(Dispatch(s, Slide(v)), Slide(4));
            && NextEnabled(r) && r.answers == s.answers[CurrentItem(s).id := 4]
  {
    var id := CurrentItem(s).id;
    var m := Dispatch(s, Slide(v));
    assert m.answers == s.answers[id := v] && m.current == s.current;
    assert Displayed(m) == v;
  }

  /** Answers are never removed or un-answered by any event. */
  lemma AnswersPersist(s: State, e: Event, id: int)
    requires Answered(s.answers, id)
    ensures Answered(Dispatch(s, e).answers, id)
  {
  }
}

=== FILE: scenarios.dfy ===
/** Compositions of the modelled parts along the lines their types suggest:
    answers scored, then a message chosen from the scores, and a submitted
    check-in carried into a message. The app itself does not connect them:
    its home page requests a message with fixed mock scores and a mock
    check-in (App.tsx:362-368), and its save handler only logs
    (App.tsx:378-381). */
module Scenarios {
  import opened Wrappers
  import opened Types
  import opened Scoring
  import opened AiService
  import CheckinModal
  import Text

  /** With every item neutral (or nothing answered) all traits tie at 4,
      and the tie goes to Extraversion, the first trait in key order. */
  lemma NeutralAnswersChooseExtraversion(a: Answers)
    requires forall id :: 1 <= id <= 10 ==> EffectiveAnswer(a, id) == 4
    ensures ScoresOf(a) == Uniform(4.0)
    ensures Dominant(ScoresOf(a)) == Extraversion
  {
    NeutralAnswersScoreFour(a);
    DominantUnique(ScoresOf(a), Extraversion);
  }

  /** Item 1 at 7 and item 6 at 1 give Extraversion the top score 7; since
      no in-scale score exceeds 7 and Extraversion wins ties, the message
      is the Extraversion one, whatever the check-in. */
  lemma MaximalExtraversionChoosesItsMessage(a: Answers, latest: Option<Checkin>, id: string,
                                             date: Timestamp)
    requires InScale(a)
    requires 1 in a && a[1] == 7 && 6 in a && a[6] == 1
    ensures GetPersonalizedMessage(ScoresOf(a), latest, id, date).info.baseTrait == Extraversion
    ensures GetPersonalizedMessage(ScoresOf(a), latest, id, date).text == Template(Extraversion)
  {
    var s := ScoresOf(a);
    MaximalExtraversion(a);
    ScoresInScale(a);
    DominantUnique(s, Extraversion);
  }

  /** A check-in saved with mood 1, low energy and a blank note carries no
      note, and a message generated from it records mood 1 and low energy. */
  lemma LowMoodCheckinSnapshot(note: string, cid: string, mid: string, date: Timestamp, scores: Scores)
    requires Text.AllWhitespace(note)
    ensures var p := CheckinModal.BuildPayload(1, Low, note);
            && p.note == None
            && var m := GetPersonalizedMessage(scores, Some(Checkin(cid, date, p.mood, p.energy, p.note)),
                                               mid, date);
               m.info.mood == 1 && m.info.energy == Low
  {
  }
}

=== FILE: scoring.dfy ===
/** Big-Five scoring of the quiz answers (App.tsx, `calculateScores`). */
module Scoring {
  import opened Types
  import opened Tipi

  /** Answers keyed by item id, as the quiz collects them. */
  type Answers = map<int, int>

  /** Whether item `id` has a truthy answer: present and not 0. */
  predicate Answered(a: Answers, id: int)
  {
    id in a && a[id] != 0
  }

  /** `answers[id] || 4`: an absent answer, or one equal to 0, counts as
      the neutral midpoint 4. */
  function EffectiveAnswer(a: Answers, id: int): (r: int)
    ensures Answered(a, id) ==> r == a[id]
    ensures !Answered(a, id) ==> r == 4
    ensures r != 0
    ensures InScale(a) ==> 1 <= r <= 7
  {
    if Answered(a, id) then a[id] else 4
  }

  /** Reverse coding mirrors the 1..7 scale around its midpoint. */
  function ReverseCode(r: int): int
  {
    8 - r
  }

  /** Reverse coding keeps [1,7] inside [1,7], and applying it twice gives
      back the response. */
  lemma ReverseCodeInvolution(r: int)
    ensures 1 <= r <= 7 <==> 1 <= ReverseCode(r) <= 7
    ensures ReverseCode(ReverseCode(r)) == r
  {
  }

  /** What item `q` adds to its trait's running sum: the effective answer,
      mirrored around 4 for a reversed item. An unanswered item adds the
      midpoint either way, and an in-scale answer adds a value in [1,7]. */
  function Contribution(q: Question, a: Answers): (r: int)
    ensures q.isReversed ==> r + EffectiveAnswer(a, q.id) == 8
    ensures !q.isReversed ==> r == EffectiveAnswer(a, q.id)
    ensures !Answered(a, q.id) ==> r == 4
    ensures InScale(a) ==> 1 <= r <= 7
  {
    if q.isReversed then ReverseCode(EffectiveAnswer(a, q.id)) else EffectiveAnswer(a, q.id)
  }

  /** Sum of the contributions of the items of `qs` tagged with `t`. */
  function TraitSum(qs: seq<Question>, a: Answers, t: Trait): int
  {
    if qs == [] then 0
    else TraitSum(qs[..|qs| - 1], a, t)
         + (if qs[|qs| - 1].scale == t then Contribution(qs[|qs| - 1], a) else 0)
  }

  /** Reference definition of a trait's score: the mean of the contributions
      of the items tagged with it. */
  function Score(a: Answers, t: Trait): real
  {
    TraitSum(Questions(), a, t) as real / TraitCount(Questions(), t) as real
  }

  /** All five scores. */
  function ScoresOf(a: Answers): Scores
  {
    PerTrait(Score(a, Extraversion), Score(a, Agreeableness), Score(a, Conscientiousness),
             Score(a, Neuroticism), Score(a, Openness))
  }

  /** `calculateScores`: one pass over the items accumulating a sum and a
      count per trait, then each sum divided by its count. The result is the
      reference score of every trait, and each trait's count is 2. */
  method CalculateScores(a: Answers) returns (s: Scores)
    ensures forall t :: s.Get(t) == TraitSum(Questions(), a, t) as real / 2.0
    ensures s == ScoresOf(a)
  {
    var qs := Questions();
    var sums: PerTrait<int> := Uniform(0);
    var counts: PerTrait<int> := Uniform(0);
    for i := 0 to |qs|
      invariant forall t :: sums.Get(t) == TraitSum(qs[..i], a, t)
      invariant forall t :: counts.Get(t) == TraitCount(qs[..i], t)
    {
      var q := qs[i];
      assert qs[..i + 1][..i] == qs[..i];
      sums := sums.Set(q.scale, sums.Get(q.scale) + Contribution(q, a));
      counts := counts.Set(q.scale, counts.Get(q.scale) + 1);
    }
    assert qs[..|qs|] == qs;
    s := Uniform(0.0);
    for i := 0 to |TraitOrder|
      invariant forall t :: Index(t) < i ==> s.Get(t) == sums.Get(t) as real / counts.Get(t) as real
    {
      var t := TraitOrder[i];
      s := s.Set(t, sums.Get(t) as real / counts.Get(t) as real);
    }
  }

  /** One step of `TraitSum` over a prefix of `qs`. */
  lemma SumStep(qs: seq<Question>, a: Answers, k: nat, t: Trait)
    requires k < |qs|
    ensures TraitSum(qs[..k + 1], a, t)
         == TraitSum(qs[..k], a, t) + (if qs[k].scale == t then Contribution(qs[k], a) else 0)
  {
    assert qs[..k + 1][..k] == qs[..k];
  }

  /** With the fixed table, every score is the mean of exactly two items:
      E(1, 6R), A(2R, 7), C(3, 8R), N(4, 9R), O(5, 10R). */
  lemma {:induction false} ScoresArePairMeans(a: Answers)
    ensures ScoresOf(a).extraversion
         == (EffectiveAnswer(a, 1) + ReverseCode(EffectiveAnswer(a, 6))) as real / 2.0
    ensures ScoresOf(a).agreeableness
         == (ReverseCode(EffectiveAnswer(a, 2)) + EffectiveAnswer(a, 7)) as real / 2.0
    ensures ScoresOf(a).conscientiousness
         == (EffectiveAnswer(a, 3) + ReverseCode(EffectiveAnswer(a, 8))) as real / 2.0
    ensures ScoresOf(a).neuroticism
         == (EffectiveAnswer(a, 4) + ReverseCode(EffectiveAnswer(a, 9))) as real / 2.0
    ensures ScoresOf(a).openness
         == (EffectiveAnswer(a, 5) + ReverseCode(EffectiveAnswer(a, 10))) as real / 2.0
  {
    TableSums(a, Extraversion);
    TableSums(a, Agreeableness);
    TableSums(a, Conscientiousness);
    TableSums(a, Neuroticism);
    TableSums(a, Openness);
  }

  /** `TraitSum` over the table, unrolled item by item. */
  lemma TableSums(a: Answers, t: Trait)
    ensures TraitSum(Questions(), a, t)
         == (if t == Extraversion then Contribution(Table[0], a) + Contribution(Table[5], a)
             else if t == Agreeableness then Contribution(Table[1], a) + Contribution(Table[6], a)
             else if t == Conscientiousness then Contribution(Table[2], a) + Contribution(Table[7], a)
             else if t == Neuroticism then Contribution(Table[3], a) + Contribution(Table[8], a)
             else Contribution(Table[4], a) + Contribution(Table[9], a))
  {
    var qs := Questions();
    assert qs[..0] == [];
    SumStep(qs, a, 0, t);
    SumStep(qs, a, 1, t);
    SumStep(qs, a, 2, t);
    SumStep(qs, a, 3, t);
    SumStep(qs, a, 4, t);
    SumStep(qs, a, 5, t);
    SumStep(qs, a, 6, t);
    SumStep(qs, a, 7, t);
    SumStep(qs, a, 8, t);
    SumStep(qs, a, 9, t);
    assert qs[..10] == qs;
  }

  /** Every recorded answer is on the 1..7 scale, or 0 (which counts as 4). */
  predicate InScale(a: Answers)
  {
    forall id :: id in a ==> 0 <= a[id] <= 7
  }

  /** Each contribution of an in-scale answer set lies in [1,7], so a sum
      over n items lies in [n, 7n]. */
  lemma {:induction false} SumBounds(qs: seq<Question>, a: Answers, t: Trait)
    requires InScale(a)
    ensures TraitCount(qs, t) <= TraitSum(qs, a, t) <= 7 * TraitCount(qs, t)
  {
    if qs != [] {
      SumBounds(qs[..|qs| - 1], a, t);
    }
  }

  /** If every answer is in scale, every score is in [1,7]. */
  lemma ScoresInScale(a: Answers)
    requires InScale(a)
    ensures forall t :: 1.0 <= ScoresOf(a).Get(t) <= 7.0
  {
    forall t ensures 1.0 <= ScoresOf(a).Get(t) <= 7.0 {
      SumBounds(Questions(), a, t);
    }
  }

  /** Unanswered items of `t` contribute 4 each, reversed or not. */
  lemma {:induction false} SumOfUnanswered(qs: seq<Question>, a: Answers, t: Trait)
    requires forall i :: 0 <= i < |qs| && qs[i].scale == t ==> !Answered(a, qs[i].id)
    ensures TraitSum(qs, a, t) == 4 * TraitCount(qs, t)
  {
    if qs != [] {
      SumOfUnanswered(qs[..|qs| - 1], a, t);
    }
  }

  /** A trait none of whose items is answered scores exactly 4. */
  lemma UnansweredTraitIsNeutral(a: Answers, t: Trait)
    requires forall i :: 0 <= i < |Questions()| && Questions()[i].scale == t
               ==> !Answered(a, Questions()[i].id)
    ensures ScoresOf(a).Get(t) == 4.0
  {
    SumOfUnanswered(Questions(), a, t);
  }

  /** With nothing answered, or every item answered 4, all traits score 4. */
  lemma NeutralAnswersScoreFour(a: Answers)
    requires forall id :: 1 <= id <= 10 ==> EffectiveAnswer(a, id) == 4
    ensures ScoresOf(a) == Uniform(4.0)
  {
    ScoresArePairMeans(a);
  }

  /** Item 1 answered 7 and item 6 answered 1 give Extraversion its maximum, 7. */
  lemma MaximalExtraversion(a: Answers)
    requires 1 in a && a[1] == 7 && 6 in a && a[6] == 1
    ensures ScoresOf(a).extraversion == 7.0
  {
    ScoresArePairMeans(a);
  }
}

=== FILE: text.dfy ===
/** The two JavaScript string primitives the core relies on:
    `String.prototype.trim` and `String.prototype.repeat`. */
module Text {
  import opened Wrappers

  /** The code points `trim` strips: ECMAScript's WhiteSpace (tab, vertical
      tab, form feed, space, no-break space, byte order mark and the
      Unicode Zs separators) and LineTerminator (LF, CR, U+2028, U+2029). */
  predicate IsWhitespace(c: char)
  {
    || c == '\U{0009}' || c == '\U{000B}' || c == '\U{000C}' || c == '\U{0020}'
    || c == '\U{00A0}' || c == '\U{FEFF}' || c == '\U{1680}'
    || ('\U{2000}' <= c <= '\U{200A}')
    || c == '\U{202F}' || c == '\U{205F}' || c == '\U{3000}'
    || c == '\U{000A}' || c == '\U{000D}' || c == '\U{2028}' || c == '\U{2029}'
  }

  /** Every character of `s` is whitespace. */
  predicate AllWhitespace(s: string)
  {
    forall i :: 0 <= i < |s| ==> IsWhitespace(s[i])
  }

  /** Neither end of `s` is whitespace. */
  predicate Trimmed(s: string)
  {
    s == [] || (!IsWhitespace(s[0]) && !IsWhitespace(s[|s| - 1]))
  }

  /** `s` without its leading whitespace: a suffix of `s` whose removed
      prefix is all whitespace and which does not start with whitespace. */
  function TrimStart(s: string): (r: string)
    ensures |r| <= |s| && r == s[|s| - |r|..]
    ensures AllWhitespace(s[..|s| - |r|])
    ensures r == [] || !IsWhitespace(r[0])
  {
    if s != [] && IsWhitespace(s[0]) then TrimStart(s[1..]) else s
  }

  /** `s` without its trailing whitespace: a prefix of `s` whose removed
      suffix is all whitespace and which does not end with whitespace. */
  function TrimEnd(s: string): (r: string)
    ensures |r| <= |s| && r == s[..|r|]
    ensures AllWhitespace(s[|r|..])
    ensures r == [] || !IsWhitespace(r[|r| - 1])
  {
    if s != [] && IsWhitespace(s[|s| - 1]) then TrimEnd(s[..|s| - 1]) else s
  }

  /** `s.trim()`: whitespace removed from both ends. The result is the
      slice of `s` between an all-whitespace prefix and an all-whitespace
      suffix, and neither of its ends is whitespace; together these fix it.
      It is empty exactly when `s` is all whitespace. */
  function Trim(s: string): (r: string)
    ensures Trimmed(r)
    ensures exists i, j :: 0 <= i <= j <= |s| && r == s[i..j] && AllWhitespace(s[..i]) && AllWhitespace(s[j..])
    ensures r == [] <==> AllWhitespace(s)
  {
    var t := TrimStart(s);
    var r := TrimEnd(t);
    TrimSlices(s, t, r);
    var i := |s| - |t|;
    assert 0 <= i <= i + |r| <= |s| && r == s[i..i + |r|] && AllWhitespace(s[..i]) && AllWhitespace(s[i + |r|..]);
    r
  }

  /** The facts `Trim` needs about trimming the start, then the end. */
  lemma TrimSlices(s: string, t: string, r: string)
    requires |t| <= |s| && t == s[|s| - |t|..] && AllWhitespace(s[..|s| - |t|])
    requires t == [] || !IsWhitespace(t[0])
    requires |r| <= |t| && r == t[..|r|] && AllWhitespace(t[|r|..])
    requires r == [] || !IsWhitespace(r[|r| - 1])
    ensures Trimmed(r)
    ensures var i := |s| - |t|;
            && 0 <= i <= i + |r| <= |s| && r == s[i..i + |r|]
            && AllWhitespace(s[..i]) && AllWhitespace(s[i + |r|..])
    ensures r == [] <==> AllWhitespace(s)
  {
    var i := |s| - |t|;
    var j := i + |r|;
    assert t == s[i..];
    assert r == s[i..j] by {
      assert r == t[..|r|];
    }
    assert s[j..] == t[|r|..];
    if r == [] {
      assert t[|r|..] == t;
      assert s[..i] == s;
    } else {
      assert r[0] == t[0] && s[i] == t[0];
    }
  }

  /** The contract of `Trim` determines it: any slice of `s` with
      all-whitespace surroundings and non-whitespace ends is `Trim(s)`. */
  lemma TrimCharacterized(s: string, i: nat, j: nat)
    requires i <= j <= |s|
    requires AllWhitespace(s[..i]) && AllWhitespace(s[j..]) && Trimmed(s[i..j])
    ensures s[i..j] == Trim(s)
  {
    var r := Trim(s);
    var i0, j0 :| 0 <= i0 <= j0 <= |s| && r == s[i0..j0] && AllWhitespace(s[..i0]) && AllWhitespace(s[j0..]);
    SameTrimmedSlice(s, i, j, i0, j0);
  }

  /** Two slices of `s` with all-whitespace surroundings and
      non-whitespace ends are equal. */
  lemma SameTrimmedSlice(s: string, i: nat, j: nat, i0: nat, j0: nat)
    requires i <= j <= |s| && i0 <= j0 <= |s|
    requires AllWhitespace(s[..i]) && AllWhitespace(s[j..]) && Trimmed(s[i..j])
    requires AllWhitespace(s[..i0]) && AllWhitespace(s[j0..]) && Trimmed(s[i0..j0])
    ensures s[i..j] == s[i0..j0]
  {
    if i == j {
      EmptySliceBetweenWhitespace(s, i, j, i0, j0);
    } else if i0 == j0 {
      EmptySliceBetweenWhitespace(s, i0, j0, i, j);
    } else {
      assert !IsWhitespace(s[i]) && !IsWhitespace(s[j - 1]) by {
        assert s[i..j][0] == s[i] && s[i..j][j - i - 1] == s[j - 1];
      }
      assert !IsWhitespace(s[i0]) && !IsWhitespace(s[j0 - 1]) by {
        assert s[i0..j0][0] == s[i0] && s[i0..j0][j0 - i0 - 1] == s[j0 - 1];
      }
      WhitespaceOutside(s, i0, j0, i);
      WhitespaceOutside(s, i0, j0, j - 1);
      WhitespaceOutside(s, i, j, i0);
      WhitespaceOutside(s, i, j, j0 - 1);
      assert i == i0 && j == j0;
    }
  }

  /** When an empty slice has all-whitespace surroundings, all of `s` is
      whitespace, so any other such slice is empty too. */
  lemma EmptySliceBetweenWhitespace(s: string, i: nat, j: nat, i0: nat, j0: nat)
    requires i == j <= |s| && i0 <= j0 <= |s|
    requires AllWhitespace(s[..i]) && AllWhitespace(s[j..]) && Trimmed(s[i0..j0])
    ensures s[i0..j0] == []
  {
    if i0 < j0 {
      assert s[i0..j0][0] == s[i0];
      WhitespaceOutside(s, i, j, i0);
    }
  }

  /** Outside a slice whose surroundings are all whitespace, every
      character of `s` is whitespace. */
  lemma WhitespaceOutside(s: string, i: nat, j: nat, k: nat)
    requires i <= j <= |s| && k < |s|
    requires AllWhitespace(s[..i]) && AllWhitespace(s[j..])
    ensures k < i || j <= k ==> IsWhitespace(s[k])
  {
    if k < i {
      assert s[..i][k] == s[k];
    } else if j <= k {
      assert s[j..][k - j] == s[k];
    }
  }

  /** Trimming a string whose ends are not whitespace returns it as is. */
  lemma TrimOfTrimmed(s: string)
    requires Trimmed(s)
    ensures Trim(s) == s
  {
  }

  /** Trimming is idempotent. */
  lemma TrimIdempotent(s: string)
    ensures Trim(Trim(s)) == Trim(s)
  {
    TrimOfTrimmed(Trim(s));
  }

  /** `c` repeated `n` times. */
  function Replicate(c: char, n: nat): (r: string)
    ensures |r| == n
    ensures forall i :: 0 <= i < n ==> r[i] == c
  {
    if n == 0 then [] else [c] + Replicate(c, n - 1)
  }

  /** The exception `repeat` raises. */
  datatype RangeError = RangeError

  /** `c.repeat(n)` for an integer count: a RangeError when `n` is
      negative, `n` copies of `c` otherwise. */
  function Repeat(c: char, n: int): (r: Result<string, RangeError>)
    ensures r.Failure? <==> n < 0
    ensures r.Success? ==> |r.value| == n && forall i :: 0 <= i < n ==> r.value[i] == c
  {
    if n < 0 then Failure(RangeError) else Success(Replicate(c, n))
  }
}

=== FILE: tipi.dfy ===
/** The Ten-Item Personality Inventory as the application configures it
    (constants.ts): ten fixed items, each tagged with a trait and a
    reverse-coding flag. */
module Tipi {
  import opened Types

  /** An inventory item; its prompt text is `Prompt(id)`. */
  datatype Question = Question(id: int, scale: Trait, isReversed: bool)

  /** The prompt shown for item `id` (Japanese, with the English original). */
  function Prompt(id: int): string
  {
    if id == 1 then "外向的で、熱意にあふれた (Extraverted, enthusiastic)"
    else if id == 2 then "批判的で、もめ事を起こしやすい (Critical, quarrelsome)"
    else if id == 3 then "頼りになり、自己規律ができる (Dependable, self-disciplined)"
    else if id == 4 then "心配性で、うろたえやすい (Anxious, easily upset)"
    else if id == 5 then "新しい体験に対しオープンで、複雑な (Open to new experiences, complex)"
    else if id == 6 then "控えめで、物静かな (Reserved, quiet)"
    else if id == 7 then "思いやりがあり、優しい (Sympathetic, warm)"
    else if id == 8 then "だらしなく、そそっかしい (Disorganized, careless)"
    else if id == 9 then "冷静で、感情的に安定している (Calm, emotionally stable)"
    else "ありきたりで、創造的でない (Conventional, uncreative)"
  }

  /** The item table. Items 2, 6, 8, 9 and 10 are reverse-coded; the
      application scores Neuroticism (item 4 forward, item 9 reversed)
      rather than the published Emotional Stability scale. */
  const Table: seq<Question> := [
    Question(1, Extraversion, false),
    Question(2, Agreeableness, true),
    Question(3, Conscientiousness, false),
    Question(4, Neuroticism, false),
    Question(5, Openness, false),
    Question(6, Extraversion, true),
    Question(7, Agreeableness, false),
    Question(8, Conscientiousness, true),
    Question(9, Neuroticism, true),
    Question(10, Openness, true)
  ]

  /** Number of items in `qs` tagged with trait `t`. */
  function TraitCount(qs: seq<Question>, t: Trait): nat
  {
    if qs == [] then 0
    else TraitCount(qs[..|qs| - 1], t) + (if qs[|qs| - 1].scale == t then 1 else 0)
  }

  /** Number of reverse-coded items in `qs` tagged with trait `t`. */
  function ReversedCount(qs: seq<Question>, t: Trait): nat
  {
    if qs == [] then 0
    else ReversedCount(qs[..|qs| - 1], t) + (if qs[|qs| - 1].scale == t && qs[|qs| - 1].isReversed then 1 else 0)
  }

  /** The set of reverse-coded item ids in `qs`. */
  function ReversedIds(qs: seq<Question>): set<int>
  {
    set i | 0 <= i < |qs| && qs[i].isReversed :: qs[i].id
  }

  /** `TIPI_QUESTIONS`: ten items with ids 1..10 in order; every trait is
      tagged by exactly two items, one of them reverse-coded; the
      reverse-coded ids are exactly 2, 6, 8, 9 and 10. */
  function Questions(): (qs: seq<Question>)
    ensures |qs| == 10
    ensures forall i :: 0 <= i < |qs| ==> qs[i].id == i + 1
    ensures forall t :: TraitCount(qs, t) == 2
    ensures forall t :: ReversedCount(qs, t) == 1
    ensures ReversedIds(qs) == {2, 6, 8, 9, 10}
  {
    TableCounts();
    TableReversedIds();
    Table
  }

  /** One step of the counting recursions, over a prefix of `qs`. */
  lemma CountStep(qs: seq<Question>, k: nat, t: Trait)
    requires k < |qs|
    ensures TraitCount(qs[..k + 1], t) == TraitCount(qs[..k], t) + (if qs[k].scale == t then 1 else 0)
    ensures ReversedCount(qs[..k + 1], t)
         == ReversedCount(qs[..k], t) + (if qs[k].scale == t && qs[k].isReversed then 1 else 0)
  {
    assert qs[..k + 1][..k] == qs[..k];
  }

  /** Every trait is tagged by two items of the table, one of them reversed. */
  lemma TableCounts()
    ensures forall t :: TraitCount(Table, t) == 2
    ensures forall t :: ReversedCount(Table, t) == 1
  {
    forall t ensures TraitCount(Table, t) == 2 && ReversedCount(Table, t) == 1 {
      TableCountsOf(t);
    }
  }

  lemma TableCountsOf(t: Trait)
    ensures TraitCount(Table, t) == 2 && ReversedCount(Table, t) == 1
  {
    assert Table[..0] == [];
    CountStep(Table, 0, t);
    CountStep(Table, 1, t);
    CountStep(Table, 2, t);
    CountStep(Table, 3, t);
    CountStep(Table, 4, t);
    CountStep(Table, 5, t);
    CountStep(Table, 6, t);
    CountStep(Table, 7, t);
    CountStep(Table, 8, t);
    CountStep(Table, 9, t);
    assert Table[..10] == Table;
  }

  lemma TableReversedIds()
    ensures ReversedIds(Table) == {2, 6, 8, 9, 10}
  {
    var r := ReversedIds(Table);
    forall x | x in r ensures x in {2, 6, 8, 9, 10} {
      var i :| 0 <= i < |Table| && Table[i].isReversed && Table[i].id == x;
    }
    assert Table[1].isReversed && Table[5].isReversed && Table[7].isReversed;
    assert Table[8].isReversed && Table[9].isReversed;
  }
}

=== FILE: types.dfy ===
/** The application's data types: Big-Five traits, trait scores, energy
    levels, check-ins and personalized messages (types.ts). */
module Types {
  import opened Wrappers

  /** The five Big-Five traits; a closed enumeration. */
  datatype Trait = Extraversion | Agreeableness | Conscientiousness | Neuroticism | Openness

  /** Declaration order of the traits, which is also the key order of every
      scores object the application builds (and so the order in which
      `Object.entries` lists them). */
  const TraitOrder: seq<Trait> := [Extraversion, Agreeableness, Conscientiousness, Neuroticism, Openness]

  /** Position of a trait in `TraitOrder`. */
  function Index(t: Trait): (i: nat)
    ensures i < |TraitOrder| && TraitOrder[i] == t
  {
    match t
    case Extraversion => 0
    case Agreeableness => 1
    case Conscientiousness => 2
    case Neuroticism => 3
    case Openness => 4
  }

  /** The trait set is closed: exactly five values, each listed once. */
  lemma TraitSetClosed()
    ensures |TraitOrder| == 5
    ensures forall t: Trait :: t in TraitOrder
    ensures forall i, j :: 0 <= i < j < |TraitOrder| ==> TraitOrder[i] != TraitOrder[j]
  {
    forall t: Trait ensures t in TraitOrder {
      assert TraitOrder[Index(t)] == t;
    }
  }

  /** One value per trait. A record with a field per trait is total by
      construction, as `{ [key in BigFiveTrait]: number }` is. */
  datatype PerTrait<T> = PerTrait(extraversion: T, agreeableness: T, conscientiousness: T,
                                  neuroticism: T, openness: T)
  {
    function Get(t: Trait): T {
      match t
      case Extraversion => extraversion
      case Agreeableness => agreeableness
      case Conscientiousness => conscientiousness
      case Neuroticism => neuroticism
      case Openness => openness
    }

    /** `obj[t] = v`: replaces the entry for `t` and keeps the other four. */
    function Set(t: Trait, v: T): (r: PerTrait<T>)
      ensures r.Get(t) == v
      ensures forall u :: u != t ==> r.Get(u) == Get(u)
    {
      match t
      case Extraversion => this.(extraversion := v)
      case Agreeableness => this.(agreeableness := v)
      case Conscientiousness => this.(conscientiousness := v)
      case Neuroticism => this.(neuroticism := v)
      case Openness => this.(openness := v)
    }
  }

  /** The same value for every trait. */
  function Uniform<T>(v: T): (r: PerTrait<T>)
    ensures forall t :: r.Get(t) == v
  {
    PerTrait(v, v, v, v, v)
  }

  /** `BigFiveScores`, with exact real values. */
  type Scores = PerTrait<real>

  /** `EnergyLevel`: exactly low, medium and high. */
  datatype EnergyLevel = Low | Medium | High

  /** A clock reading, opaque to the model. */
  type Timestamp = int

  /** `Checkin`: the note is optional. */
  datatype Checkin = Checkin(id: string, date: Timestamp, mood: int, energy: EnergyLevel,
                             note: Option<string>)

  /** A check-in as the form submits it, before an id and a date are
      attached (`Omit<Checkin, 'id' | 'date'>`). */
  datatype CheckinDraft = CheckinDraft(mood: int, energy: EnergyLevel, note: Option<string>)

  /** The context recorded with a message. */
  datatype Personalization = Personalization(baseTrait: Trait, mood: int, energy: EnergyLevel)

  /** `PersonalizedMessage`: the rating is optional. */
  datatype PersonalizedMessage = PersonalizedMessage(id: string, date: Timestamp, text: string,
                                                     rating: Option<int>, info: Personalization)
}

=== FILE: views.dfy ===
/** The trait band shown on the profile screen (App.tsx, `OnboardingPage`). */
module ProfileView {

  /** High, medium or low tendency ("高い", "中程度", "低い"). */
  datatype Band = Low | Medium | High

  /** The phrase rendered for a band; different bands read differently. */
  function Phrase(b: Band): (r: string)
    ensures r == "高い" <==> b == High
    ensures r == "中程度" <==> b == Medium
    ensures r == "低い" <==> b == Low
  {
    match b
    case High => "高い"
    case Medium => "中程度"
    case Low => "低い"
  }

  /** The band of a score: high above 4.5, low below 3.5, medium in
      between, both thresholds included in medium. */
  function BandOf(score: real): (b: Band)
    ensures b == High <==> score > 4.5
    ensures b == Low <==> score < 3.5
    ensures b == Medium <==> 3.5 <= score <= 4.5
  {
    if score > 4.5 then High else if score < 3.5 then Low else Medium
  }

  /** The phrase the profile screen renders for a score: "高い" exactly
      above 4.5, "低い" exactly below 3.5, "中程度" otherwise. */
  function Tendency(score: real): (r: string)
    ensures r == "高い" <==> score > 4.5
    ensures r == "低い" <==> score < 3.5
    ensures r == "中程度" <==> 3.5 <= score <= 4.5
  {
    Phrase(BandOf(score))
  }

  /** Order of the bands, low to high. */
  function Level(b: Band): nat
  {
    match b
    case Low => 0
    case Medium => 1
    case High => 2
  }

  /** A higher score never gets a lower band, and the neutral score 4 is
      medium. */
  lemma BandMonotone(x: real, y: real)
    requires x <= y
    ensures Level(BandOf(x)) <= Level(BandOf(y))
    ensures BandOf(4.0) == Medium
  {
  }
}

/** The rating stars of the message history (App.tsx, `HistoryPage`). */
module HistoryView {
  import opened Wrappers
  import opened Text

  const FilledStar: char := '\U{2B50}'
  const HollowStar: char := '\U{2606}'

  /** `item.rating || 0`: a missing rating, like 0, shows no filled star. */
  function StarCount(rating: Option<int>): int
  {
    match rating
    case Some(r) => r
    case None => 0
  }

  /** `'⭐'.repeat(n) + '☆'.repeat(5 - n)` for `n = rating || 0`: for a
      rating in 0..5, five symbols, the first `n` filled and the rest
      hollow; any other rating makes `repeat` throw. */
  function StarString(rating: Option<int>): (r: Result<string, RangeError>)
    ensures r.Success? <==> 0 <= StarCount(rating) <= 5
    ensures r.Success? ==> |r.value| == 5
    ensures r.Success? ==> forall i :: 0 <= i < 5 ==>
              r.value[i] == (if i < StarCount(rating) then FilledStar else HollowStar)
  {
    var n := StarCount(rating);
    match Repeat(FilledStar, n)
    case Failure(e) => Failure(e)
    case Success(filled) =>
      match Repeat(HollowStar, 5 - n)
      case Failure(e) => Failure(e)
      case Success(hollow) => Success(filled + hollow)
  }

  /** Number of filled stars in `s`. */
  function FilledCount(s: string): nat
  {
    if s == [] then 0 else (if s[0] == FilledStar then 1 else 0) + FilledCount(s[1..])
  }

  lemma {:induction false} FilledCountAppend(a: string, b: string)
    ensures FilledCount(a + b) == FilledCount(a) + FilledCount(b)
  {
    if a == [] {
      assert a + b == b;
    } else {
      assert (a + b)[1..] == a[1..] + b;
      FilledCountAppend(a[1..], b);
    }
  }

  lemma {:induction false} FilledCountOfReplicate(c: char, n: nat)
    ensures FilledCount(Replicate(c, n)) == if c == FilledStar then n else 0
  {
    if n > 0 {
      assert Replicate(c, n)[1..] == Replicate(c, n - 1);
      FilledCountOfReplicate(c, n - 1);
    }
  }

  /** The star string reads back as the rating: it holds exactly as many
      filled stars as the rating (0 for a missing one). */
  lemma StarsShowRating(rating: Option<int>)
    requires 0 <= StarCount(rating) <= 5
    ensures StarString(rating).Success?
    ensures FilledCount(StarString(rating).value) == StarCount(rating)
  {
    var n := StarCount(rating);
    FilledCountAppend(Replicate(FilledStar, n), Replicate(HollowStar, 5 - n));
    FilledCountOfReplicate(FilledStar, n);
    FilledCountOfReplicate(HollowStar, 5 - n);
  }
}

=== FILE: wrappers.dfy ===
/** Optional values and fallible results: JavaScript's `undefined`/`null`
    and thrown exceptions, made explicit. */
module Wrappers {

  datatype Option<+T> = None | Some(value: T)

  datatype Result<+R, +E> = Success(value: R) | Failure(error: E)
}
